=== FILE: README.md ===
# hexagon-chess session engine and client selection, in Dafny

This project models the two small event-driven state machines at the heart of
hexagon-chess:

* the **server** (`app.js`). It numbers incoming web-socket connections and
  seats each one in the single open game. When that game has two players, the
  server starts it with white to move and opens a fresh game. It keeps a
  registry from connection id to game. It gates MADE_MOVE messages on the
  turn, relays accepted moves to both players, aborts a game when a player
  leaves with close code 1001, and periodically sweeps finished games out of
  the registry;
* the **browser client** (`GameHandler` in `public/javascripts/interactions.js`).
  It works out whose turn the local game data says it is. It runs the
  click-driven selection machine that turns two clicks into one MADE_MOVE,
  and it reacts to each inbound message by enabling or disabling the board
  and choosing the status-bar label.

Node runs every handler to completion, so each server handler is a pure
function `ServerState -> Result<Reaction, Fault>`. A `Reaction` is the new
state plus the ordered actions performed (`Send(to, msg)`, `Close(conn)`).
A `Fault` is the TypeError the handler throws: a registry miss or a call on a
`null` player slot. Nothing catches it, so it ends the process. The Game
objects, which app.js shares by reference, live in a map from game id
(`games`). The registry (`websockets`) maps connection ids to game ids. The
client is a record (`selected`, `cellsEnabled`, `status`, `playerType`,
`gameState`, `outbox`) with pure step functions for a click and for an
inbound message.

The code these handlers call but that is not part of this model enters as
function-valued parameters. Their types limit what each one can change (see
"## Left out"), but no other rules are invented for them:

* `Server.GameOps` holds the Game constructor, `addPlayer`,
  `hasTwoConnectedPlayers`, `isValidTransition`, `setStatus`, `performMove`,
  `PositionChecker.isPositionOnBoard` and `checkPosition`. `setStatus` maps
  a game's `gameState`, its `finalStatus` and the requested status to the new
  `gameState` and `finalStatus`, so whether an abort makes a game final is up
  to the Game class;
* `Client.Checker` holds `isPositionOnTheField`, `checkPosition` and
  `Position.equals`.

The board and the `gameState` value given to `isValidTransition` are opaque
types.

Files:

* `wrappers.dfy`: `Option` and `Result`;
* `protocol.dfy`: positions, colours, game data, the closed message type, and
  JavaScript's `%` by 2;
* `server.dfy`: server state, the four handlers, the sweep as a function and
  as the loop app.js runs;
* `server_runs.dfy`: runs of any sequence of events, plus the turn-test
  finding;
* `client.dfy`: the GameHandler logic;
* `client_runs.dfy`: runs of any sequence of clicks;
* `session.dfy`: server prompts delivered to the clients.

Three behaviours of the code that its names and comments do not suggest:

* a message or a 1001 close from a connection missing from the registry
  makes the handler throw, because `websockets[id]` is undefined
  (`UnknownConnection`);
* the close handler's comment (app.js:212-214) speaks of closing the
  connection that remains open, but the code closes and clears both player
  slots, the leaving player's included;
* the turn test is not `turn % 2` (see Findings).

## Model

| member | source | states |
|---|---|---|
| Server.Init | app.js:47-49 | The start-up state is well formed: empty registry, connection counter 0, one open game, which is exactly the fresh game the Game constructor builds for the id `gamesInitialized`, and that counter is one past it. |
| Server.OnConnection | app.js:51-93 | The new connection gets the counter's value, an id not yet in the registry. The counter grows by exactly one, and the id is registered to the game open at accept time. The newcomer is sent its colour, then the game data. If `hasTwoConnectedPlayers` holds after seating, `setStatus("WHITE MOVES")` is applied to that game (its status becomes WHITE MOVES, and its `gameState` and `finalStatus` become what `setStatus` returns), white is sent MAKE_A_MOVE and black WAIT_FOR_TURN, and a fresh game numbered `gamesInitialized` becomes the open one, with the counter bumped. Otherwise the open game only gains the seat, and the counter stays as it was. A `null` seat at that point is a fault. No other game changes. |
| Server.OnMessage | app.js:101-160 | The registry lookup comes first, so an unknown sender is a fault whatever the message. A non-MADE_MOVE message, or a move that fails the turn test, changes nothing and sends nothing. A move with an endpoint off the board, or one `checkPosition` rejects, changes nothing and sends exactly one ILLEGAL_MOVE to the mover's seat. An accepted move changes only the sender's game. The board becomes `performMove`'s result and the turn grows by exactly one. `setStatus` is applied with the status naming the opponent, and the game's `gameState` and `finalStatus` become what it returns. The actions are GAME_DATA to white and to black, then MAKE_A_MOVE to the opponent and WAIT_FOR_TURN to the mover. |
| Server.OnClose | app.js:195-231 | A code other than 1001, or `isValidTransition(gameState, "ABORTED")` false, changes nothing. Otherwise `setStatus("ABORTED")` is applied: the game's status becomes ABORTED, its `gameState` and `finalStatus` become what `setStatus` returns, and `gamesAborted` grows by exactly one. Both seats are cleared, and no message is sent. Exactly the seated players are closed, once each, white's socket first and black's last. Nothing else changes. |
| Server.Sweep | app.js:35-45 | Only the registry changes. An entry is kept exactly when its game has no final status, and kept entries keep their game. The state stays well formed. |
| Server.SweepRegistry | app.js:36-44 | The key-by-key deletion loop computes exactly `Sweep`. |
| ServerRuns.Step | app.js:51-231 | Every handler keeps the server state well formed. A sweep tick sends nothing. Only an accepted connection takes an id, moving the counter on by one; no other event touches it. |
| ServerRuns.Run | app.js:51-231 | Any sequence of events that ends without a fault leaves the state well formed. |
| ServerRuns.RunCountsConnections | app.js:56 | After any run, the connection counter has grown by exactly the number of connects. Ids are handed out consecutively and never twice. |
| ServerRuns.RunEvolves | app.js:35-231 | Across any run: the counters never decrease, and no game is forgotten. No turn decreases. A registry entry never moves to another game. New entries carry ids the counter had not handed out before. |
| ServerRuns.StepRemovesOnlyFinished | app.js:35-45 | Within one handler, a registry entry disappears only in a sweep, and only when its game has a final status. |
| ServerRuns.RunKeepsFinished | app.js:51-231 | If the Game class never changes a final status once set, a game finished at the start of any run is still finished at its end. |
| ServerRuns.RunRemovesOnlyFinished | app.js:35-45 | If the Game class never changes a final status once set, a registry entry that disappears during a run belonged to a game that is finished at the end of the run. Live games keep all their connections. |
| ServerRuns.AbortThenSweepEvicts | app.js:205-210 | When a 1001 close aborts a game and `setStatus("ABORTED")` gives it a final status, the next sweep leaves no connection registered to that game. |
| ServerRuns.RunNeverSendsGameOver | app.js:129-138 | No run ever sends GAME_OVER, because the win check is `if(false)`. |
| ServerRuns.PairSharesGame | app.js:56-93 | When one arrival leaves the open game open and the next seals it, both connections are registered to that game. Its requested status is WHITE MOVES, and a different game is now open. |
| ServerRuns.NextArrivalAfterSealGoesElsewhere | app.js:83-93 | The arrival after a seal is registered to a game other than the sealed one. |
| ServerRuns.SweepIdempotent | app.js:35-45 | A second sweep right after the first changes nothing. |
| ServerRuns.WrittenGateOnlyWhiteAtZero | app.js:106-109 | For a non-negative turn, the turn test as written admits a move exactly when the mover is white and the turn is 0. |
| ServerRuns.WrittenGateDropsLaterMoves | app.js:106-109 | As written, every message to a game past turn 0 leaves the state unchanged and sends nothing. |
| ServerRuns.WrittenGameNeverPassesTurnOne | app.js:106-140 | As written, if every game starts at turn 0, no game ever gets past turn 1 in any run. |
| ServerRuns.InitTurnsAtMostOne | app.js:47-48 | If the Game constructor starts a game at turn 0, the start-up state already satisfies the turn bound (every turn in 0..1) that `WrittenGameNeverPassesTurnOne` carries through any run. |
| ServerRuns.IntendedGateAlternates | app.js:109 | The corrected test `(turn + 1) % 2` admits exactly the colour whose turn it is by parity (even = white). A move that passes it makes the opponent, and only the opponent, the next to pass. |
| ServerRuns.IntendedMoveHandsOver | app.js:140-157 | Under the corrected test, after an accepted move the opponent may move and the mover may not. The status names the opponent. |
| Session.AcceptedMoveReachesBothClients | app.js:142-157 | After an accepted move, each seated client handles what the server sent it. Both then hold the new game data. The opponent's cells are enabled with label makeMove, and the mover's are disabled with label waitingTurn. Under the corrected test, the opponent's client also computes that it is the opponent's turn. |
| Session.SealPromptsBothClients | app.js:83-93 | When the newcomer seals the game in the black seat, the white client ends up enabled with label makeMove. The black client learns its colour and the game data, and ends up disabled with label waitingTurn. |
| Protocol.JsRem2 | public/javascripts/interactions.js:54 | JavaScript's `a % 2` lies in -1..1, takes the sign of `a`, and is 0 exactly when `a` is even. |
| Client.GetTurnPlayerType | public/javascripts/interactions.js:53-55 | The result is WHITE exactly when the turn is even, and BLACK exactly when it is odd. |
| Client.IsPositionSelected | public/javascripts/interactions.js:89-91 | Whether the handler holds a selection. The contracts of `DeselectPosition`, `SetCurrentSelectedPosition` and `UpdatePosition` are stated in terms of this query. |
| Client.DeselectPosition | public/javascripts/interactions.js:81-84 | Afterwards nothing is selected, and nothing else changed. |
| Client.SetCurrentSelectedPosition | public/javascripts/interactions.js:63-64 | Afterwards the given position is selected, and nothing else changed. |
| Client.UpdatePosition | public/javascripts/interactions.js:97-145 | A click off the field sets label notNice and changes nothing else. With nothing selected, an on-field click selects it silently. With a selection, every on-field click clears it: the same cell only deselects, and a move `checkPosition` rejects sets invalidMove and sends nothing. Otherwise exactly one MADE_MOVE(previous selection, clicked cell) is sent, the label becomes waitingServer and the cells are disabled. A message goes out exactly in that last case. The player type and game data are never touched. |
| Client.OnMessage | public/javascripts/interactions.js:193-235 | MAKE_A_MOVE and ILLEGAL_MOVE enable the cells, with labels makeMove and invalidMove. WAIT_FOR_TURN disables them with label waitingTurn. PLAYER_TYPE records the colour, disables the cells and sets waitingOpponent. GAME_DATA replaces the game data and nothing else. Every other message, GAME_OVER included, changes nothing. No inbound message touches the selection or sends anything. |
| ClientRuns.ClicksSendOnlyCheckedMoves | public/javascripts/interactions.js:97-145 | Over any sequence of clicks, the outbox is only appended to, and the selection stays on the field. Every message sent is a MADE_MOVE between two distinct on-field cells that `checkPosition` accepts. At most one message goes out per two clicks, counting a selection already held. |
| ClientRuns.SelectThenMoveSendsOneMove | public/javascripts/interactions.js:106-144 | From no selection, clicking two different on-field cells whose move is accepted sends exactly that move. The client is then left waiting for the server, with nothing selected and its cells disabled. |
| ClientRuns.DeselectUndoesSelect | public/javascripts/interactions.js:63-91 | Selecting and then deselecting gives the same state as deselecting straight away. |

## Findings

| source | as written | input that shows it | evidently intended | confidence | as-written member | corrected member |
|---|---|---|---|---|---|---|
| app.js:109 | `isPlayerWhite == (turn + 1 % 2)`; `%` binds tighter, so the test is `isPlayerWhite == turn + 1` | a game at turn 0 where white moves (accepted, turn becomes 1), then black sends a legal move at turn 1: `0 == 2` is false, so the move is dropped; from then on every move of either player is dropped and the game is stuck | `isPlayerWhite == (turn + 1) % 2`: white moves on even turns, black on odd ones, matching `getTurnPlayerType` on the client | high (not executed) | ServerRuns.WrittenGameNeverPassesTurnOne | ServerRuns.IntendedGateAlternates |

`Server.OnMessage` takes the turn test as a parameter (`TurnRule`).
`AsWritten` is app.js's behaviour and `Intended` is the correction.
`RunCountsConnections`, `RunEvolves`, `RunKeepsFinished`,
`RunRemovesOnlyFinished` and `RunNeverSendsGameOver` hold under both rules.
`WrittenGateOnlyWhiteAtZero`, `WrittenGateDropsLaterMoves` and
`WrittenGameNeverPassesTurnOne` hold under `AsWritten` only. Under
`Intended`, the two players alternate and the turn keeps growing.
`IntendedMoveHandsOver` and the turn clause of
`AcceptedMoveReachesBothClients` hold under the correction.

## Left out

- Express, http and ws setup, argument parsing, `server.listen`, and the `setInterval` timer itself. These are I/O; a sweep is the explicit `Tick` event.
- JSON parsing and stringifying of envelopes, and the shared mutable `messages.O_*` objects. Messages are a closed datatype, so malformed JSON cannot arise.
- Server.OnMessage: the ILLEGAL_MOVE reply at app.js:121-122 sends the bare type constant, where the other prompts send a serialized envelope. Whether a client can parse it depends on messages.js, which is not part of this model, so it is treated as the ILLEGAL_MOVE message.
- The internals of Game, PositionChecker, Position and messages. They are not part of this model and are parameters (`GameOps`, `Checker`). No rules are assumed for them, except the one hypothesis, `FinalSticks`, that `RunKeepsFinished` and `RunRemovesOnlyFinished` name.
- Server.OnConnection: `addPlayer` is taken to answer WHITE or BLACK. The handler sends PLAYER_BLACK for any answer other than WHITE, so an error value would behave like BLACK.
- `addPlayer` and `hasTwoConnectedPlayers` see only the two player slots. They cannot alter the board or the turn.
- Server.OnMessage: `performMove` is taken to return only the new board. In app.js:127 it is a method of the game-data object that also holds `turn` and the time counters, and that class is not part of this model. So the model assumes it does not alter the turn or the time counters. The clause "the turn grows by exactly one", the "no turn decreases" part of `RunEvolves` and the bound in `WrittenGameNeverPassesTurnOne` all rest on this assumption.
- RunEvolves: says nothing about final statuses or about which registry entries survive. `setStatus` may set or change a game's final status at every move, seal and abort, so those facts belong to the sweep lemmas (`StepRemovesOnlyFinished`, `RunKeepsFinished`, `RunRemovesOnlyFinished`, `AbortThenSweepEvicts`).
- RunKeepsFinished, RunRemovesOnlyFinished: hold only under the hypothesis `FinalSticks`, that `setStatus` never changes a final status once set. The Game class is not part of this model, so the hypothesis is stated rather than proved.
- Time counters in the game data, `updateBarData` and the client timers. They are display only.
- Socket `close()` is taken to succeed. A `null` slot's TypeError inside the try block is only logged, so that slot produces no `Close` action. Logging is left out.
- When a handler throws, the messages it already sent are not returned: the uncaught exception ends the process.
- Concurrency and locking. Node's event loop runs one handler at a time, so runs are sequences of events.
- Client rendering: the highlighting loops in `setCurrentSelectedPosition` and `updateBoard`, which use an undefined `e`. Also piece moves on the visible board, audio, `initializeBoard`, `onclose`, `onerror` and `onopen`.
- public/javascripts/ui/visiblegameboard.js: DOM querying and class-name changes only. VisibleGameBoard as shown (visiblegameboard.js:5-67) defines none of `selectCell`, `deselectAllCells`, `enableAllCells` or `disableAllCells`. So, as written, `setCurrentSelectedPosition` (interactions.js:65) and `deselectPosition` (interactions.js:83, reached from `updatePosition`) throw, as does the sending branch of `updatePosition` (interactions.js:139), and so does the message handler at interactions.js:202, 223, 228 and 233, before the label is set. The model takes these four calls to have the select, deselect, enable and disable effects their names describe. Its own click listener calls `gameHandler.updateGame`, which GameHandler does not define; the model treats a click as a call of `updatePosition`.
- Whether a click reaches `updatePosition` while the cells are disabled is decided by the page, so clicks are modelled as always delivered.
- The commented-out code at app.js:162-192 and interactions.js:237-251.

=== FILE: client.dfy ===
/** The browser side's decision logic (GameHandler in interactions.js): whose
    turn the local game data says it is, the click-driven selection of a
    piece and its target, and the reaction to each inbound message. The page
    itself is reduced to what these choices change: the selection, whether
    the board's cells accept clicks, the status-bar label, the player type,
    and the messages sent on the socket. */
module Client {
  import opened Wrappers
  import opened Protocol

  /** The status-bar texts the handlers choose among (`Status.*`). */
  datatype Label = NotNice | InvalidMove | WaitingServer | MakeMove | WaitingTurn | WaitingOpponent

  /** A GameHandler and the parts of the page it drives. `outbox` lists, in
      order, every message sent on the socket. */
  datatype ClientState = ClientState(
    playerType: Option<PlayerType>,
    gameState: GameData,
    selected: Option<Position>,
    cellsEnabled: bool,
    status: Label,
    outbox: seq<Message>)

  /** The collaborators whose code is not part of this model:
      PositionChecker and `Position.equals`. */
  datatype Checker = Checker(
    isPositionOnTheField: Position -> bool,
    checkPosition: (Position, Position, Board) -> bool,
    equals: (Position, Position) -> bool)

  /** `getTurnPlayerType` (interactions.js:53-55): white on even turns. The
      source's `%` is JavaScript's, which keeps the sign of the turn. */
  function GetTurnPlayerType(c: ClientState): (p: PlayerType)
    ensures p == White <==> c.gameState.turn % 2 == 0
    ensures p == Black <==> c.gameState.turn % 2 == 1
  {
    if JsRem2(c.gameState.turn) == 0 then White else Black
  }

  /** `isPositionSelected` (interactions.js:89-91). */
  predicate IsPositionSelected(c: ClientState)
  {
    c.selected.Some?
  }

  /** `deselectPosition` (interactions.js:81-84): forget the selection. */
  function DeselectPosition(c: ClientState): (r: ClientState)
    ensures !IsPositionSelected(r)
    ensures r.(selected := c.selected) == c
  {
    c.(selected := None)
  }

  /** The assignment in `setCurrentSelectedPosition` (interactions.js:63-64);
      the highlighting that follows it is page rendering. */
  function SetCurrentSelectedPosition(c: ClientState, p: Position): (r: ClientState)
    ensures IsPositionSelected(r) && r.selected.value == p
    ensures r.(selected := c.selected) == c
  {
    c.(selected := Some(p))
  }

  /** `updatePosition` (interactions.js:97-145), run on each click. */
  function UpdatePosition(chk: Checker, c: ClientState, p: Position): (r: ClientState)
    // a click never touches the player type or the game data, and only ever appends to the outbox
    ensures r.playerType == c.playerType && r.gameState == c.gameState
    ensures |c.outbox| <= |r.outbox| <= |c.outbox| + 1 && r.outbox[..|c.outbox|] == c.outbox
    // off the field: complain, and change nothing else
    ensures !chk.isPositionOnTheField(p) ==> r == c.(status := NotNice)
    // nothing selected: select the clicked position, silently
    ensures chk.isPositionOnTheField(p) && !IsPositionSelected(c) ==>
              r.selected == Some(p) && r.outbox == c.outbox && r.status == c.status && r.cellsEnabled == c.cellsEnabled
    // something selected: whatever happens next, the selection is gone
    ensures chk.isPositionOnTheField(p) && IsPositionSelected(c) ==> !IsPositionSelected(r)
    ensures chk.isPositionOnTheField(p) && IsPositionSelected(c) ==>
              var previous := c.selected.value;
              if chk.equals(previous, p) then
                // the same cell again: only deselect
                r == c.(selected := None)
              else if !chk.checkPosition(previous, p, c.gameState.board) then
                // a move the checker rejects: say so, send nothing
                r == c.(selected := None, status := InvalidMove)
              else
                // a move: send it, then wait for the server with the board disabled
                && r.outbox == c.outbox + [MadeMove(previous, p)]
                && r.status == WaitingServer
                && !r.cellsEnabled
    // a message goes out only from a selection to a different, accepted cell
    ensures |r.outbox| > |c.outbox| <==>
              chk.isPositionOnTheField(p) && IsPositionSelected(c)
              && !chk.equals(c.selected.value, p) && chk.checkPosition(c.selected.value, p, c.gameState.board)
  {
    if !chk.isPositionOnTheField(p) then
      c.(status := NotNice)
    else if IsPositionSelected(c) then
      var previous := c.selected.value;
      var deselected := DeselectPosition(c);
      if chk.equals(previous, p) then deselected
      else if !chk.checkPosition(previous, p, c.gameState.board) then deselected.(status := InvalidMove)
      else
        deselected.(outbox := c.outbox + [MadeMove(previous, p)], status := WaitingServer, cellsEnabled := false)
    else
      SetCurrentSelectedPosition(c, p)
  }

  /** The `socket.onmessage` dispatch (interactions.js:193-235). */
  function OnMessage(c: ClientState, m: Message): (r: ClientState)
    // an inbound message never changes the selection and never sends anything
    ensures r.selected == c.selected && r.outbox == c.outbox
    ensures m.MakeAMove? ==> r.cellsEnabled && r.status == MakeMove
    ensures m.IllegalMove? ==> r.cellsEnabled && r.status == InvalidMove
    ensures m.WaitForTurn? ==> !r.cellsEnabled && r.status == WaitingTurn
    ensures m.PlayerTypeIs? ==> r.playerType == Some(m.player) && !r.cellsEnabled && r.status == WaitingOpponent
    // only PLAYER_TYPE sets the player type, only GAME_DATA replaces the game data
    ensures r.playerType != c.playerType ==> m.PlayerTypeIs?
    ensures r.gameState != c.gameState ==> m.GameDataIs?
    ensures m.GameDataIs? ==> r == c.(gameState := m.data)
    // anything else, GAME_OVER included, is ignored
    ensures m.MadeMove? || m.GameOver? || m.Unrecognised? ==> r == c
  {
    match m
    case PlayerTypeIs(p) => c.(playerType := Some(p), cellsEnabled := false, status := WaitingOpponent)
    case GameDataIs(data) => c.(gameState := data)
    case MakeAMove => c.(cellsEnabled := true, status := MakeMove)
    case IllegalMove => c.(cellsEnabled := true, status := InvalidMove)
    case WaitForTurn => c.(cellsEnabled := false, status := WaitingTurn)
    case _ => c
  }
}

=== FILE: client_runs.dfy ===
/** Sequences of clicks on the client, and what every such sequence sends. */
module ClientRuns {
  import opened Wrappers
  import opened Protocol
  import opened Client

  /** The clicks handled in order. */
  function Clicks(chk: Checker, c: ClientState, ps: seq<Position>): (r: ClientState)
    decreases |ps|
  {
    if ps == [] then c else Clicks(chk, UpdatePosition(chk, c, ps[0]), ps[1..])
  }

  /** A selection, when there is one, is a cell on the field. */
  predicate SelectionOnField(chk: Checker, c: ClientState)
  {
    c.selected.None? || chk.isPositionOnTheField(c.selected.value)
  }

  /** Each message is a MADE_MOVE between two distinct cells of the field
      that the checker accepts on `board`. */
  ghost predicate CheckedMoves(chk: Checker, board: Board, msgs: seq<Message>)
  {
    forall i :: 0 <= i < |msgs| ==>
      && msgs[i].MadeMove?
      && chk.isPositionOnTheField(msgs[i].p1)
      && chk.isPositionOnTheField(msgs[i].p2)
      && !chk.equals(msgs[i].p1, msgs[i].p2)
      && chk.checkPosition(msgs[i].p1, msgs[i].p2, board)
  }

  function Bit(b: bool): (n: nat)
  {
    if b then 1 else 0
  }

  /** Whatever the clicks, the client only appends to its outbox; everything
      it appends is a checked move out of a selection on the field; and since
      each move needs one click to select and one to send, it sends at most
      one message per two clicks (counting a selection already held). */
  lemma {:induction false} ClicksSendOnlyCheckedMoves(chk: Checker, c: ClientState, ps: seq<Position>)
    requires SelectionOnField(chk, c)
    ensures var r := Clicks(chk, c, ps);
      && r.gameState == c.gameState && r.playerType == c.playerType
      && SelectionOnField(chk, r)
      && |c.outbox| <= |r.outbox|
      && r.outbox[..|c.outbox|] == c.outbox
      && CheckedMoves(chk, c.gameState.board, r.outbox[|c.outbox|..])
      && 2 * (|r.outbox| - |c.outbox|) + Bit(r.selected.Some?) <= |ps| + Bit(c.selected.Some?)
    decreases |ps|
  {
    if ps != [] {
      var c1 := UpdatePosition(chk, c, ps[0]);
      ClicksSendOnlyCheckedMoves(chk, c1, ps[1..]);
      var r := Clicks(chk, c1, ps[1..]);
      assert r.outbox[..|c1.outbox|] == c1.outbox;
      assert c1.outbox[..|c.outbox|] == c.outbox;
      assert CheckedMoves(chk, c.gameState.board, c1.outbox[|c.outbox|..]);
      assert r.outbox[|c.outbox|..] == c1.outbox[|c.outbox|..] + r.outbox[|c1.outbox|..];
    }
  }

  /** Two clicks from an empty selection, on two different cells of the
      field whose move the checker accepts, send exactly that move and leave
      the client waiting for the server with its cells disabled. */
  lemma SelectThenMoveSendsOneMove(chk: Checker, c: ClientState, p1: Position, p2: Position)
    requires !IsPositionSelected(c)
    requires chk.isPositionOnTheField(p1) && chk.isPositionOnTheField(p2)
    requires !chk.equals(p1, p2) && chk.checkPosition(p1, p2, c.gameState.board)
    ensures var r := Clicks(chk, c, [p1, p2]);
      && r.outbox == c.outbox + [MadeMove(p1, p2)]
      && !IsPositionSelected(r)
      && !r.cellsEnabled
      && r.status == WaitingServer
  {
    assert [p1, p2][1..] == [p2];
    assert [p2][1..] == [];
    var c1 := UpdatePosition(chk, c, p1);
    assert c1.selected == Some(p1);
    assert Clicks(chk, c, [p1, p2]) == Clicks(chk, c1, [p2]);
    assert Clicks(chk, c1, [p2]) == UpdatePosition(chk, c1, p2);
  }

  /** Deselecting after selecting is the same as deselecting straight away. */
  lemma DeselectUndoesSelect(c: ClientState, p: Position)
    ensures DeselectPosition(SetCurrentSelectedPosition(c, p)) == DeselectPosition(c)
  {
  }
}

=== FILE: protocol.dfy ===
/** What the server (app.js) and the browser client (interactions.js) share:
    board positions, player colours, the game data that travels in GAME_DATA,
    and the closed set of protocol messages exchanged over the web socket.
    JSON encoding of the envelopes is not modelled; a message is its variant. */
module Protocol {

  /** A hexagonal board cell in cube coordinates (`Position` of utils.js). */
  datatype Position = Position(x: int, y: int, z: int)

  /** The game board. Its representation and its move rules belong to the
      game-state class, which is not part of this model. */
  type Board(==)

  /** `PlayerType.WHITE` / `PlayerType.BLACK`. */
  datatype PlayerType = White | Black

  /** The part of a game's `gameData` that the core reads and writes:
      the board and the turn counter (even = white to move). */
  datatype GameData = GameData(board: Board, turn: int)

  /** One protocol envelope, by its `type`. */
  datatype Message =
    | PlayerTypeIs(player: PlayerType)   // PLAYER_TYPE, sent as S_PLAYER_WHITE / S_PLAYER_BLACK
    | GameDataIs(data: GameData)         // GAME_DATA: a snapshot of the game data
    | MadeMove(p1: Position, p2: Position)
    | MakeAMove
    | WaitForTurn
    | IllegalMove
    | GameOver(winner: PlayerType)
    | Unrecognised                       // any other envelope, e.g. the "{}" a client sends on open

  function Opponent(p: PlayerType): (q: PlayerType)
    ensures q != p
  {
    if p == White then Black else White
  }

  /** JavaScript's `a % 2`. The remainder truncates toward zero, so it takes
      the sign of the dividend, whereas Dafny's `%` is Euclidean and never
      negative; the two agree on whether `a` is even. */
  function JsRem2(a: int): (r: int)
    ensures -1 <= r <= 1
    ensures r == 0 <==> a % 2 == 0
    ensures a >= 0 ==> r == a % 2
    ensures a < 0 ==> r <= 0
  {
    if a >= 0 then a % 2 else -((-a) % 2)
  }
}

=== FILE: server.dfy ===
/** The server's session engine (app.js): the connection counter, the registry
    from connection id to game, the single open game that is sealed and
    replaced once it holds two players, the MADE_MOVE gate, the close handler
    and the periodic registry sweep. Node runs every handler to completion, so
    each one is a pure function from the server state to the next state and
    the actions it performed (messages sent, sockets closed), or to the fault
    it threw. */
module Server {
  import opened Wrappers
  import opened Protocol

  /** The `id` app.js stamps on each accepted web socket. */
  type ConnId = nat

  /** The id a Game receives from `gamesInitialized`. */
  type GameId = nat

  /** The `gameState` value app.js hands to `isValidTransition`; what it
      holds is up to the Game class. */
  type GameStateTag(==, !new)

  /** The values the handlers pass to `Game.setStatus`. `Unlisted` stands for
      any status the Game class sets on its own (its initial one, say). */
  datatype Status = WhiteMoves | BlackMoves | Aborted | Unlisted(name: string)

  /** A game's two player slots, `playerWhite` and `playerBlack`; a player is
      known by its connection id. */
  datatype Seats = Seats(white: Option<ConnId>, black: Option<ConnId>)

  /** A Game object as the handlers see it. `status` is the last status
      requested through `setStatus`; what that call does to `gameState` and
      `finalStatus` is up to the Game class (see `GameOps.setStatus`). */
  datatype Game = Game(
    seats: Seats,
    data: GameData,
    status: Status,
    finalStatus: Option<Status>,
    gameState: GameStateTag)

  /** The collaborators whose code is not part of this model: the Game
      constructor and methods, and PositionChecker. `setStatus` maps a game's
      `gameState` and `finalStatus` and the requested status to the new
      `gameState` and `finalStatus`. */
  datatype GameOps = GameOps(
    newGame: GameId -> Game,
    addPlayer: (Seats, ConnId) -> (Seats, PlayerType),
    hasTwoConnectedPlayers: Seats -> bool,
    isValidTransition: (GameStateTag, Status) -> bool,
    setStatus: (GameStateTag, Option<Status>, Status) -> (GameStateTag, Option<Status>),
    performMove: (Board, Position, Position) -> Board,
    isPositionOnBoard: Position -> bool,
    checkPosition: (Position, Position, Board) -> bool)

  /** The server's memory. The Game objects, shared by reference in app.js,
      live in `games` under their ids; `registry` is the `websockets` object,
      `current` is `currentGame`, `connectionId` is `connectionID`, and the
      two counters are those of the statistics tracker. */
  datatype ServerState = ServerState(
    registry: map<ConnId, GameId>,
    games: map<GameId, Game>,
    current: GameId,
    connectionId: nat,
    gamesInitialized: nat,
    gamesAborted: nat)

  /** Something a handler does to the outside world. */
  datatype Action = Send(to: ConnId, msg: Message) | Close(conn: ConnId)

  /** The TypeError a handler throws: a registry miss (`websockets[id]` is
      undefined) or a call on a player slot that is `null`. Nothing catches
      it, so the process ends there. */
  datatype Fault = UnknownConnection(conn: ConnId) | NullPlayer

  /** A handler that ran to completion: the new state and its actions, in order. */
  datatype Reaction = Reaction(state: ServerState, actions: seq<Action>)

  /** Which turn test the MADE_MOVE handler applies: the one app.js has, or
      the one it evidently meant (see `MayMove`). */
  datatype TurnRule = AsWritten | Intended

  /** The close code app.js treats as "the client went away". */
  const GoingAway: int := 1001

  /** Every id in use was handed out by a counter, every registry entry
      points at a stored game, and the open game is the newest one. */
  ghost predicate Valid(s: ServerState)
  {
    && s.current in s.games
    && s.current + 1 == s.gamesInitialized
    && (forall gid :: gid in s.games ==> gid < s.gamesInitialized)
    && (forall c :: c in s.registry ==> c < s.connectionId && s.registry[c] in s.games)
  }

  /** The server after start-up: one empty open game numbered from the
      tracker's `gamesInitialized`, no connection yet. */
  function Init(ops: GameOps, initialized: nat, aborted: nat): (s: ServerState)
    ensures Valid(s)
    ensures s.registry == map[] && s.connectionId == 0 && s.gamesAborted == aborted
    ensures s.current == initialized && s.gamesInitialized == initialized + 1
    ensures s.games == map[initialized := ops.newGame(initialized)]
  {
    ServerState(map[], map[initialized := ops.newGame(initialized)], initialized, 0, initialized + 1, aborted)
  }

  function Seat(seats: Seats, p: PlayerType): (c: Option<ConnId>)
  {
    if p == White then seats.white else seats.black
  }

  predicate BothSeated(seats: Seats)
  {
    seats.white.Some? && seats.black.Some?
  }

  function MovesStatus(p: PlayerType): (st: Status)
  {
    if p == White then WhiteMoves else BlackMoves
  }

  /** The colour app.js believes a sender plays: white exactly when it is the
      game's `playerWhite`, black otherwise. */
  function SenderColour(g: Game, from: ConnId): (p: PlayerType)
  {
    if g.seats.white == Some(from) then White else Black
  }

  /** The turn test at app.js:109. `isPlayerWhite` is 1 or 0, and
      `turn + 1 % 2` parses as `turn + (1 % 2)`, that is `turn + 1`. The
      intended test, `(turn + 1) % 2`, lets white move on even turns. */
  predicate MayMove(rule: TurnRule, mover: PlayerType, turn: int)
  {
    var isPlayerWhite := if mover == White then 1 else 0;
    match rule
    case AsWritten => isPlayerWhite == turn + JsRem2(1)
    case Intended => isPlayerWhite == JsRem2(turn + 1)
  }

  /** `Game.setStatus`: the game records the requested status, and the Game
      class decides its new `gameState` and `finalStatus`. */
  function SetStatus(ops: GameOps, g: Game, st: Status): (g': Game)
    ensures g'.seats == g.seats && g'.data == g.data && g'.status == st
  {
    var (tag, final) := ops.setStatus(g.gameState, g.finalStatus, st);
    g.(status := st, gameState := tag, finalStatus := final)
  }

  /** Both endpoints on the board and the move accepted by the checker. */
  predicate Legal(ops: GameOps, board: Board, p1: Position, p2: Position)
  {
    ops.isPositionOnBoard(p1) && ops.isPositionOnBoard(p2) && ops.checkPosition(p1, p2, board)
  }

  /** Nothing but the listed game differs, and the registry and counters are kept. */
  ghost predicate OnlyGameChanged(s: ServerState, s': ServerState, gid: GameId)
  {
    && s'.registry == s.registry && s'.current == s.current
    && s'.connectionId == s.connectionId && s'.gamesInitialized == s.gamesInitialized
    && s'.games.Keys == s.games.Keys
    && (forall k :: k in s.games && k != gid ==> s'.games[k] == s.games[k])
  }

  /** The "connection" handler (app.js:51-93): number the socket, seat it in
      the open game, register it, tell it its colour and the game data, and,
      once the open game has two players, start that game with white to move
      and open a fresh one. */
  function OnConnection(ops: GameOps, s: ServerState): (r: Result<Reaction, Fault>)
    requires Valid(s)
    ensures r.Success? ==> Valid(r.value.state)
    ensures var (seats, role) := ops.addPlayer(s.games[s.current].seats, s.connectionId);
      && (r.Failure? <==> ops.hasTwoConnectedPlayers(seats) && !BothSeated(seats))
      && (r.Failure? ==> r.error == NullPlayer)
      && (r.Success? ==>
            var s', acts := r.value.state, r.value.actions;
            var g := s.games[s.current];
            s.current in s'.games &&
            var g' := s'.games[s.current];
            // the id is fresh, is the counter's old value, and maps to the game open at accept time
            && s.connectionId !in s.registry
            && s'.connectionId == s.connectionId + 1
            && s'.registry == s.registry[s.connectionId := s.current]
            && s'.gamesAborted == s.gamesAborted
            // the newcomer hears its colour, then the game data
            && |acts| >= 2
            && acts[0] == Send(s.connectionId, PlayerTypeIs(role))
            && acts[1] == Send(s.connectionId, GameDataIs(g.data))
            // the open game gains the seat and keeps its data
            && g'.seats == seats && g'.data == g.data
            && (forall gid :: gid in s.games && gid != s.current ==> gid in s'.games && s'.games[gid] == s.games[gid])
            && (if ops.hasTwoConnectedPlayers(seats) then
                  // sealed: white is told to move, black to wait; a fresh game opens
                  && g'.status == WhiteMoves
                  && (g'.gameState, g'.finalStatus) == ops.setStatus(g.gameState, g.finalStatus, WhiteMoves)
                  && acts[2..] == [Send(seats.white.value, MakeAMove), Send(seats.black.value, WaitForTurn)]
                  && s.gamesInitialized !in s.games
                  && s'.current == s.gamesInitialized
                  && s'.gamesInitialized == s.gamesInitialized + 1
                  && s'.games.Keys == s.games.Keys + {s'.current}
                  && s'.games[s'.current] == ops.newGame(s.gamesInitialized)
                else
                  // not yet sealed: `setStatus` is not called
                  && g' == g.(seats := seats)
                  && |acts| == 2
                  && s'.current == s.current
                  && s'.gamesInitialized == s.gamesInitialized
                  && s'.games.Keys == s.games.Keys))
  {
    var id := s.connectionId;
    var g := s.games[s.current];
    var (seats, role) := ops.addPlayer(g.seats, id);
    var registry := s.registry[id := s.current];
    var hello := [Send(id, PlayerTypeIs(role)), Send(id, GameDataIs(g.data))];
    if !ops.hasTwoConnectedPlayers(seats) then
      Success(Reaction(
        s.(registry := registry, games := s.games[s.current := g.(seats := seats)], connectionId := id + 1),
        hello))
    else if !BothSeated(seats) then
      Failure(NullPlayer)
    else
      var next := s.gamesInitialized;
      var sealed := SetStatus(ops, g.(seats := seats), WhiteMoves);
      Success(Reaction(
        s.(registry := registry,
           games := s.games[s.current := sealed][next := ops.newGame(next)],
           current := next,
           connectionId := id + 1,
           gamesInitialized := next + 1),
        hello + [Send(seats.white.value, MakeAMove), Send(seats.black.value, WaitForTurn)]))
  }

  /** The "message" handler (app.js:101-160). Only MADE_MOVE does anything:
      a move out of turn is dropped, an off-board or rejected move earns the
      mover ILLEGAL_MOVE, and an accepted move is applied, counted, broadcast
      and the turn handed over. The win check guarded by `if(false)` never
      runs and is absent here. */
  function OnMessage(ops: GameOps, rule: TurnRule, s: ServerState, from: ConnId, m: Message): (r: Result<Reaction, Fault>)
    requires Valid(s)
    ensures r.Success? ==> Valid(r.value.state)
    // the registry lookup comes first, whatever the message
    ensures from !in s.registry <==> r == Failure(UnknownConnection(from))
    ensures from in s.registry ==>
      var gid := s.registry[from];
      var g := s.games[gid];
      var me := SenderColour(g, from);
      // anything but a move, or a move out of turn: no change, no reply
      && (!m.MadeMove? || !MayMove(rule, me, g.data.turn) ==> r == Success(Reaction(s, [])))
      // a rejected move: one ILLEGAL_MOVE to the mover's seat, nothing changes
      && (m.MadeMove? && MayMove(rule, me, g.data.turn) && !Legal(ops, g.data.board, m.p1, m.p2) ==>
            if Seat(g.seats, me).None? then r == Failure(NullPlayer)
            else r == Success(Reaction(s, [Send(Seat(g.seats, me).value, IllegalMove)])))
      // an accepted move
      && (m.MadeMove? && MayMove(rule, me, g.data.turn) && Legal(ops, g.data.board, m.p1, m.p2) ==>
            (r.Failure? <==> !BothSeated(g.seats))
            && (r.Success? ==>
                  var s', acts := r.value.state, r.value.actions;
                  OnlyGameChanged(s, s', gid) &&
                  var g' := s'.games[gid];
                  var them := Opponent(me);
                  && s'.gamesAborted == s.gamesAborted
                  && g'.data.turn == g.data.turn + 1
                  && g'.data.board == ops.performMove(g.data.board, m.p1, m.p2)
                  && g'.status == MovesStatus(them)
                  && g'.seats == g.seats
                  && (g'.gameState, g'.finalStatus) == ops.setStatus(g.gameState, g.finalStatus, MovesStatus(them))
                  && acts == [Send(g.seats.white.value, GameDataIs(g'.data)),
                              Send(g.seats.black.value, GameDataIs(g'.data)),
                              Send(Seat(g.seats, them).value, MakeAMove),
                              Send(Seat(g.seats, me).value, WaitForTurn)]))
  {
    if from !in s.registry then Failure(UnknownConnection(from))
    else
      var gid := s.registry[from];
      var g := s.games[gid];
      var me := SenderColour(g, from);
      match m
      case MadeMove(p1, p2) =>
        if !MayMove(rule, me, g.data.turn) then
          Success(Reaction(s, []))
        else if !Legal(ops, g.data.board, p1, p2) then
          var mover := Seat(g.seats, me);
          if mover.None? then Failure(NullPlayer)
          else Success(Reaction(s, [Send(mover.value, IllegalMove)]))
        else if !BothSeated(g.seats) then
          Failure(NullPlayer)
        else
          var data := GameData(ops.performMove(g.data.board, p1, p2), g.data.turn + 1);
          var them := Opponent(me);
          var moved := SetStatus(ops, g.(data := data), MovesStatus(them));
          Success(Reaction(
            s.(games := s.games[gid := moved]),
            [Send(g.seats.white.value, GameDataIs(data)),
             Send(g.seats.black.value, GameDataIs(data)),
             Send(Seat(g.seats, them).value, MakeAMove),
             Send(Seat(g.seats, me).value, WaitForTurn)]))
      case _ =>
        Success(Reaction(s, []))
  }

  /** The sockets the close handler shuts: each seated player, white first. A
      `null` slot throws inside the handler's try block and is only logged. */
  function CloseSeated(seats: Seats): (acts: seq<Action>)
  {
    (if seats.white.Some? then [Close(seats.white.value)] else [])
    + (if seats.black.Some? then [Close(seats.black.value)] else [])
  }

  /** The "close" handler (app.js:195-231): on code 1001, if the game may
      still be aborted, abort it, count it, and close and clear both seats. */
  function OnClose(ops: GameOps, s: ServerState, from: ConnId, code: int): (r: Result<Reaction, Fault>)
    requires Valid(s)
    ensures r.Success? ==> Valid(r.value.state)
    ensures code != GoingAway ==> r == Success(Reaction(s, []))
    ensures code == GoingAway ==> (from !in s.registry <==> r == Failure(UnknownConnection(from)))
    ensures code == GoingAway && from in s.registry ==>
      var gid := s.registry[from];
      var g := s.games[gid];
      if !ops.isValidTransition(g.gameState, Aborted) then r == Success(Reaction(s, []))
      else
        && r.Success?
        && var s', acts := r.value.state, r.value.actions;
           OnlyGameChanged(s, s', gid) &&
           var g' := s'.games[gid];
           && s'.gamesAborted == s.gamesAborted + 1
           && g'.status == Aborted
           && g'.seats == Seats(None, None)
           && g'.data == g.data
           && (g'.gameState, g'.finalStatus) == ops.setStatus(g.gameState, g.finalStatus, Aborted)
           // no message is sent; exactly the seated players are closed, each once
           && |acts| == (if g.seats.white.Some? then 1 else 0) + (if g.seats.black.Some? then 1 else 0)
           // white's socket first, black's last
           && (g.seats.white.Some? ==> acts[0] == Close(g.seats.white.value))
           && (g.seats.black.Some? ==> acts[|acts| - 1] == Close(g.seats.black.value))
           && (forall a :: a in acts ==> a.Close?)
           && (forall c: ConnId :: Close(c) in acts <==> Some(c) == g.seats.white || Some(c) == g.seats.black)
  {
    if code != GoingAway then Success(Reaction(s, []))
    else if from !in s.registry then Failure(UnknownConnection(from))
    else
      var gid := s.registry[from];
      var g := s.games[gid];
      if !ops.isValidTransition(g.gameState, Aborted) then Success(Reaction(s, []))
      else
        var aborted := SetStatus(ops, g, Aborted).(seats := Seats(None, None));
        Success(Reaction(
          s.(games := s.games[gid := aborted], gamesAborted := s.gamesAborted + 1),
          CloseSeated(g.seats)))
  }

  /** A game the sweep may forget: stored, and given a final status. */
  predicate Finished(games: map<GameId, Game>, gid: GameId)
  {
    gid in games && games[gid].finalStatus.Some?
  }

  /** The body of the periodic clean-up (app.js:35-45), as a reference
      definition: drop exactly the registry entries of finished games. */
  function Sweep(s: ServerState): (s': ServerState)
    ensures s' == s.(registry := s'.registry)
    ensures forall c :: c in s'.registry ==> c in s.registry && s'.registry[c] == s.registry[c]
    ensures forall c :: c in s.registry ==> (c in s'.registry <==> !Finished(s.games, s.registry[c]))
    ensures Valid(s) ==> Valid(s')
  {
    s.(registry := map c | c in s.registry && !Finished(s.games, s.registry[c]) :: s.registry[c])
  }

  /** The clean-up as app.js runs it: visit every key of the registry once and
      delete the entry when its game has a final status. */
  method SweepRegistry(s: ServerState) returns (s': ServerState)
    ensures s' == Sweep(s)
  {
    var registry := s.registry;
    var pending := s.registry.Keys;
    while pending != {}
      invariant pending <= s.registry.Keys
      invariant registry.Keys <= s.registry.Keys
      invariant forall c :: c in registry ==> registry[c] == s.registry[c]
      invariant forall c :: c in pending ==> c in registry
      invariant forall c :: c in s.registry && c !in pending ==>
                  (c in registry <==> !Finished(s.games, s.registry[c]))
      decreases pending
    {
      var c :| c in pending;
      if Finished(s.games, registry[c]) {
        registry := registry - {c};
      }
      pending := pending - {c};
    }
    s' := s.(registry := registry);
  }
}

=== FILE: server_runs.dfy ===
/** Runs of the server: any interleaving of connects, messages, closes and
    sweep ticks, one handler at a time as Node's event loop delivers them,
    and what holds of every such run. */
module ServerRuns {
  import opened Wrappers
  import opened Protocol
  import opened Server

  /** One event the event loop hands to app.js. `Tick` is one firing of the
      clean-up interval. */
  datatype Event =
    | Connect
    | Receive(from: ConnId, msg: Message)
    | Disconnect(from: ConnId, code: int)
    | Tick

  /** The handler an event runs. */
  function Step(ops: GameOps, rule: TurnRule, s: ServerState, e: Event): (r: Result<Reaction, Fault>)
    requires Valid(s)
    ensures r.Success? ==> Valid(r.value.state)
    ensures e.Tick? ==> r == Success(Reaction(Sweep(s), []))
    // only an accepted connection takes an id
    ensures r.Success? ==> r.value.state.connectionId == s.connectionId + (if e.Connect? then 1 else 0)
  {
    match e
    case Connect => OnConnection(ops, s)
    case Receive(from, m) => OnMessage(ops, rule, s, from, m)
    case Disconnect(from, code) => OnClose(ops, s, from, code)
    case Tick => Success(Reaction(Sweep(s), []))
  }

  /** Events handled in order; the first fault ends the run (the process
      dies with it). */
  function Run(ops: GameOps, rule: TurnRule, s: ServerState, events: seq<Event>): (r: Result<Reaction, Fault>)
    requires Valid(s)
    ensures r.Success? ==> Valid(r.value.state)
    decreases |events|
  {
    if events == [] then Success(Reaction(s, []))
    else
      match Step(ops, rule, s, events[0])
      case Failure(f) => Failure(f)
      case Success(first) =>
        match Run(ops, rule, first.state, events[1..])
        case Failure(f) => Failure(f)
        case Success(rest) => Success(Reaction(rest.state, first.actions + rest.actions))
  }

  /** How many connections a list of events accepts. */
  function Connects(events: seq<Event>): (n: nat)
  {
    if events == [] then 0
    else (if events[0].Connect? then 1 else 0) + Connects(events[1..])
  }

  /** Each accepted connection takes the counter's value and bumps it by one,
      so after a run the counter has grown by exactly the number of connects:
      ids are handed out consecutively and never twice. */
  lemma {:induction false} RunCountsConnections(ops: GameOps, rule: TurnRule, s: ServerState, events: seq<Event>)
    requires Valid(s)
    requires Run(ops, rule, s, events).Success?
    ensures Run(ops, rule, s, events).value.state.connectionId == s.connectionId + Connects(events)
    decreases |events|
  {
    if events != [] {
      var first := Step(ops, rule, s, events[0]).value;
      RunCountsConnections(ops, rule, first.state, events[1..]);
    }
  }

  /** What survives from one state to a later one: the counters never go
      back, no game is forgotten, no turn goes back, a registry entry never
      moves to another game, and new entries carry ids the counter had not
      yet handed out. */
  ghost predicate Evolves(s: ServerState, s': ServerState)
  {
    && s.connectionId <= s'.connectionId
    && s.gamesInitialized <= s'.gamesInitialized
    && s.gamesAborted <= s'.gamesAborted
    && (forall gid :: gid in s.games ==>
          && gid in s'.games
          && s.games[gid].data.turn <= s'.games[gid].data.turn)
    && (forall c :: c in s.registry && c in s'.registry ==> s'.registry[c] == s.registry[c])
    && (forall c :: c in s'.registry && c !in s.registry ==> s.connectionId <= c)
  }

  lemma StepEvolves(ops: GameOps, rule: TurnRule, s: ServerState, e: Event)
    requires Valid(s)
    requires Step(ops, rule, s, e).Success?
    ensures Evolves(s, Step(ops, rule, s, e).value.state)
  {
    match e
    case Connect => ConnectionEvolves(ops, s);
    case Receive(from, m) => MessageEvolves(ops, rule, s, from, m);
    case Disconnect(from, code) => CloseEvolves(ops, s, from, code);
    case Tick =>
  }

  lemma ConnectionEvolves(ops: GameOps, s: ServerState)
    requires Valid(s)
    requires OnConnection(ops, s).Success?
    ensures Evolves(s, OnConnection(ops, s).value.state)
  {
  }

  lemma MessageEvolves(ops: GameOps, rule: TurnRule, s: ServerState, from: ConnId, m: Message)
    requires Valid(s)
    requires OnMessage(ops, rule, s, from, m).Success?
    ensures Evolves(s, OnMessage(ops, rule, s, from, m).value.state)
  {
  }

  lemma CloseEvolves(ops: GameOps, s: ServerState, from: ConnId, code: int)
    requires Valid(s)
    requires OnClose(ops, s, from, code).Success?
    ensures Evolves(s, OnClose(ops, s, from, code).value.state)
  {
  }

  lemma EvolvesTransitive(s0: ServerState, s1: ServerState, s2: ServerState)
    requires Valid(s0) && Valid(s1)
    requires Evolves(s0, s1) && Evolves(s1, s2)
    ensures Evolves(s0, s2)
  {
  }

  /** Every property of `Evolves` holds across a whole run. */
  lemma {:induction false} RunEvolves(ops: GameOps, rule: TurnRule, s: ServerState, events: seq<Event>)
    requires Valid(s)
    requires Run(ops, rule, s, events).Success?
    ensures Evolves(s, Run(ops, rule, s, events).value.state)
    decreases |events|
  {
    if events != [] {
      var first := Step(ops, rule, s, events[0]).value;
      StepEvolves(ops, rule, s, events[0]);
      RunEvolves(ops, rule, first.state, events[1..]);
      EvolvesTransitive(s, first.state, Run(ops, rule, s, events).value.state);
    }
  }

  /** Within one handler, only a sweep removes registry entries, and only
      those whose game has a final status. */
  lemma StepRemovesOnlyFinished(ops: GameOps, rule: TurnRule, s: ServerState, e: Event)
    requires Valid(s)
    requires Step(ops, rule, s, e).Success?
    ensures var s' := Step(ops, rule, s, e).value.state;
      forall c :: c in s.registry && c !in s'.registry ==> e.Tick? && Finished(s.games, s.registry[c])
  {
  }

  /** The Game class never takes a final status back once it is set. */
  ghost predicate FinalSticks(ops: GameOps)
  {
    forall tag, final: Option<Status>, st ::
      final.Some? ==> ops.setStatus(tag, final, st).1 == final
  }

  /** Under `FinalSticks`, no handler un-finishes a game. */
  lemma StepKeepsFinished(ops: GameOps, rule: TurnRule, s: ServerState, e: Event)
    requires Valid(s)
    requires FinalSticks(ops)
    requires Step(ops, rule, s, e).Success?
    ensures forall gid :: Finished(s.games, gid) ==> Finished(Step(ops, rule, s, e).value.state.games, gid)
  {
    match e
    case Connect => ConnectionKeepsFinished(ops, s);
    case Receive(from, m) => MessageKeepsFinished(ops, rule, s, from, m);
    case Disconnect(from, code) => CloseKeepsFinished(ops, s, from, code);
    case Tick =>
  }

  lemma ConnectionKeepsFinished(ops: GameOps, s: ServerState)
    requires Valid(s)
    requires FinalSticks(ops)
    requires OnConnection(ops, s).Success?
    ensures forall gid :: Finished(s.games, gid) ==> Finished(OnConnection(ops, s).value.state.games, gid)
  {
  }

  lemma MessageKeepsFinished(ops: GameOps, rule: TurnRule, s: ServerState, from: ConnId, m: Message)
    requires Valid(s)
    requires FinalSticks(ops)
    requires OnMessage(ops, rule, s, from, m).Success?
    ensures forall gid :: Finished(s.games, gid) ==> Finished(OnMessage(ops, rule, s, from, m).value.state.games, gid)
  {
  }

  lemma CloseKeepsFinished(ops: GameOps, s: ServerState, from: ConnId, code: int)
    requires Valid(s)
    requires FinalSticks(ops)
    requires OnClose(ops, s, from, code).Success?
    ensures forall gid :: Finished(s.games, gid) ==> Finished(OnClose(ops, s, from, code).value.state.games, gid)
  {
  }

  /** When the Game class keeps final statuses, a game finished at some point
      of a run is still finished at its end. */
  lemma {:induction false} RunKeepsFinished(ops: GameOps, rule: TurnRule, s: ServerState, events: seq<Event>)
    requires Valid(s)
    requires FinalSticks(ops)
    requires Run(ops, rule, s, events).Success?
    ensures forall gid :: Finished(s.games, gid) ==> Finished(Run(ops, rule, s, events).value.state.games, gid)
    decreases |events|
  {
    if events != [] {
      var first := Step(ops, rule, s, events[0]).value;
      StepKeepsFinished(ops, rule, s, events[0]);
      RunKeepsFinished(ops, rule, first.state, events[1..]);
    }
  }

  /** When the Game class keeps final statuses, a registry entry disappears
      during a run only if its game ends the run finished: the live games of
      a run keep all their connections. */
  lemma {:induction false} RunRemovesOnlyFinished(ops: GameOps, rule: TurnRule, s: ServerState, events: seq<Event>)
    requires Valid(s)
    requires FinalSticks(ops)
    requires Run(ops, rule, s, events).Success?
    ensures var s' := Run(ops, rule, s, events).value.state;
      forall c :: c in s.registry && c !in s'.registry ==> Finished(s'.games, s.registry[c])
    decreases |events|
  {
    if events != [] {
      var first := Step(ops, rule, s, events[0]).value;
      StepRemovesOnlyFinished(ops, rule, s, events[0]);
      StepEvolves(ops, rule, s, events[0]);
      RunKeepsFinished(ops, rule, first.state, events[1..]);
      RunRemovesOnlyFinished(ops, rule, first.state, events[1..]);
    }
  }

  /** An abort that leaves the game with a final status takes effect at the
      next sweep: no connection stays registered to the aborted game. */
  lemma AbortThenSweepEvicts(ops: GameOps, s: ServerState, from: ConnId)
    requires Valid(s)
    requires from in s.registry
    requires var g := s.games[s.registry[from]];
      && ops.isValidTransition(g.gameState, Aborted)
      && ops.setStatus(g.gameState, g.finalStatus, Aborted).1.Some?
    ensures var s' := Sweep(OnClose(ops, s, from, GoingAway).value.state);
      && from !in s'.registry
      && forall c :: c in s'.registry ==> s'.registry[c] != s.registry[from]
  {
  }

  /** No action in the list announces GAME_OVER. */
  ghost predicate NoGameOver(acts: seq<Action>)
  {
    forall i :: 0 <= i < |acts| ==> !(acts[i].Send? && acts[i].msg.GameOver?)
  }

  lemma StepNeverSendsGameOver(ops: GameOps, rule: TurnRule, s: ServerState, e: Event)
    requires Valid(s)
    requires Step(ops, rule, s, e).Success?
    ensures NoGameOver(Step(ops, rule, s, e).value.actions)
  {
    match e
    case Connect => ConnectionNoGameOver(ops, s);
    case Receive(from, m) => MessageNoGameOver(ops, rule, s, from, m);
    case Disconnect(from, code) => CloseNoGameOver(ops, s, from, code);
    case Tick =>
  }

  lemma ConnectionNoGameOver(ops: GameOps, s: ServerState)
    requires Valid(s)
    requires OnConnection(ops, s).Success?
    ensures NoGameOver(OnConnection(ops, s).value.actions)
  {
  }

  lemma MessageNoGameOver(ops: GameOps, rule: TurnRule, s: ServerState, from: ConnId, m: Message)
    requires Valid(s)
    requires OnMessage(ops, rule, s, from, m).Success?
    ensures NoGameOver(OnMessage(ops, rule, s, from, m).value.actions)
  {
  }

  lemma CloseNoGameOver(ops: GameOps, s: ServerState, from: ConnId, code: int)
    requires Valid(s)
    requires OnClose(ops, s, from, code).Success?
    ensures NoGameOver(OnClose(ops, s, from, code).value.actions)
  {
  }

  /** The win-condition branch is `if(false)`: no run ever announces
      GAME_OVER. */
  lemma {:induction false} RunNeverSendsGameOver(ops: GameOps, rule: TurnRule, s: ServerState, events: seq<Event>)
    requires Valid(s)
    requires Run(ops, rule, s, events).Success?
    ensures NoGameOver(Run(ops, rule, s, events).value.actions)
    decreases |events|
  {
    if events != [] {
      var first := Step(ops, rule, s, events[0]).value;
      StepNeverSendsGameOver(ops, rule, s, events[0]);
      RunNeverSendsGameOver(ops, rule, first.state, events[1..]);
      var rest := Run(ops, rule, first.state, events[1..]).value;
      assert Run(ops, rule, s, events).value.actions == first.actions + rest.actions;
    }
  }

  /** Two arrivals pair up: if the first leaves the open game open and the
      second seals it, both connections are registered to that game, which
      now has white to move, and the server has opened a different game. */
  lemma PairSharesGame(ops: GameOps, s: ServerState)
    requires Valid(s)
    requires OnConnection(ops, s).Success?
    requires !ops.hasTwoConnectedPlayers(OnConnection(ops, s).value.state.games[s.current].seats)
    requires OnConnection(ops, OnConnection(ops, s).value.state).Success?
    requires ops.hasTwoConnectedPlayers(ops.addPlayer(OnConnection(ops, s).value.state.games[s.current].seats, s.connectionId + 1).0)
    ensures var s2 := OnConnection(ops, OnConnection(ops, s).value.state).value.state;
      && s2.registry[s.connectionId] == s.current
      && s2.registry[s.connectionId + 1] == s.current
      && s2.games[s.current].status == WhiteMoves
      && s2.current != s.current
  {
  }

  /** A third arrival starts a new game: once a connection seals the open
      game, the next connection is registered to another one. */
  lemma NextArrivalAfterSealGoesElsewhere(ops: GameOps, s: ServerState)
    requires Valid(s)
    requires OnConnection(ops, s).Success?
    requires ops.hasTwoConnectedPlayers(OnConnection(ops, s).value.state.games[s.current].seats)
    requires OnConnection(ops, OnConnection(ops, s).value.state).Success?
    ensures var s2 := OnConnection(ops, OnConnection(ops, s).value.state).value.state;
      && s2.registry[s.connectionId + 1] != s.current
      && s2.registry[s.connectionId + 1] != s2.registry[s.connectionId]
  {
  }

  /** A second sweep right after the first removes nothing more. */
  lemma SweepIdempotent(s: ServerState)
    ensures Sweep(Sweep(s)) == Sweep(s)
  {
  }

  /** As written, the gate admits only white, and only at turn 0. */
  lemma WrittenGateOnlyWhiteAtZero(mover: PlayerType, turn: int)
    requires turn >= 0
    ensures MayMove(AsWritten, mover, turn) <==> mover == White && turn == 0
  {
  }

  /** The intended gate admits exactly the colour whose turn it is by the
      parity convention the client also uses (even = white), so a move that
      passes it hands the next turn to the opponent and to nobody else. */
  lemma IntendedGateAlternates(mover: PlayerType, turn: int)
    requires turn >= 0
    ensures MayMove(Intended, mover, turn) <==> (mover == White <==> turn % 2 == 0)
    ensures MayMove(Intended, mover, turn) ==>
              MayMove(Intended, Opponent(mover), turn + 1) && !MayMove(Intended, mover, turn + 1)
  {
  }

  /** Under the intended gate, an accepted move leaves the game in a state
      where the opponent, and only the opponent, may move next, and the
      status names the opponent. */
  lemma IntendedMoveHandsOver(ops: GameOps, s: ServerState, from: ConnId, p1: Position, p2: Position)
    requires Valid(s)
    requires from in s.registry
    requires s.games[s.registry[from]].data.turn >= 0
    requires var g := s.games[s.registry[from]];
      && MayMove(Intended, SenderColour(g, from), g.data.turn)
      && Legal(ops, g.data.board, p1, p2)
      && BothSeated(g.seats)
    ensures var g := s.games[s.registry[from]];
      var me := SenderColour(g, from);
      var g' := OnMessage(ops, Intended, s, from, MadeMove(p1, p2)).value.state.games[s.registry[from]];
      && MayMove(Intended, Opponent(me), g'.data.turn)
      && !MayMove(Intended, me, g'.data.turn)
      && g'.status == MovesStatus(Opponent(me))
  {
  }

  /** As written, any move that reaches a game past turn 0 is dropped: the
      state is unchanged and nobody is told anything. */
  lemma WrittenGateDropsLaterMoves(ops: GameOps, s: ServerState, from: ConnId, m: Message)
    requires Valid(s)
    requires from in s.registry
    requires s.games[s.registry[from]].data.turn >= 1
    ensures OnMessage(ops, AsWritten, s, from, m) == Success(Reaction(s, []))
  {
  }

  ghost predicate TurnsAtMostOne(s: ServerState)
  {
    forall gid :: gid in s.games ==> 0 <= s.games[gid].data.turn <= 1
  }

  lemma StepKeepsTurnsAtMostOne(ops: GameOps, s: ServerState, e: Event)
    requires Valid(s)
    requires forall gid: GameId :: ops.newGame(gid).data.turn == 0
    requires TurnsAtMostOne(s)
    requires Step(ops, AsWritten, s, e).Success?
    ensures TurnsAtMostOne(Step(ops, AsWritten, s, e).value.state)
  {
    var s' := Step(ops, AsWritten, s, e).value.state;
    forall gid | gid in s'.games
      ensures 0 <= s'.games[gid].data.turn <= 1
    {
      if gid in s.games {
        WrittenGateOnlyWhiteAtZero(White, s.games[gid].data.turn);
      }
    }
  }

  /** The server starts inside that bound when the Game constructor starts
      games at turn 0. */
  lemma InitTurnsAtMostOne(ops: GameOps, initialized: nat, aborted: nat)
    requires ops.newGame(initialized).data.turn == 0
    ensures TurnsAtMostOne(Init(ops, initialized, aborted))
  {
  }

  /** The consequence of the as-written gate for a whole run: when every game
      starts at turn 0, no game ever gets past turn 1, so after white's first
      move a game can never continue. */
  lemma {:induction false} WrittenGameNeverPassesTurnOne(ops: GameOps, s: ServerState, events: seq<Event>)
    requires Valid(s)
    requires forall gid: GameId :: ops.newGame(gid).data.turn == 0
    requires TurnsAtMostOne(s)
    requires Run(ops, AsWritten, s, events).Success?
    ensures TurnsAtMostOne(Run(ops, AsWritten, s, events).value.state)
    decreases |events|
  {
    if events != [] {
      var first := Step(ops, AsWritten, s, events[0]).value;
      StepKeepsTurnsAtMostOne(ops, s, events[0]);
      WrittenGameNeverPassesTurnOne(ops, first.state, events[1..]);
    }
  }
}

=== FILE: session.dfy ===
/** Server and client together: the prompts the server sends are what put
    each browser into the right mode. */
module Session {
  import opened Wrappers
  import opened Protocol
  import opened Server
  import opened Client

  /** The messages a list of server actions sends to one connection, in order. */
  function Inbox(acts: seq<Action>, to: ConnId): (msgs: seq<Message>)
    ensures |msgs| <= |acts|
    decreases |acts|
  {
    if acts == [] then []
    else (if acts[0].Send? && acts[0].to == to then [acts[0].msg] else []) + Inbox(acts[1..], to)
  }

  /** A client handling inbound messages in order. */
  function Deliver(c: ClientState, msgs: seq<Message>): (r: ClientState)
    decreases |msgs|
  {
    if msgs == [] then c else Deliver(Client.OnMessage(c, msgs[0]), msgs[1..])
  }

  /** Splitting the actions splits each connection's inbox the same way. */
  lemma {:induction false} InboxAppend(a: seq<Action>, b: seq<Action>, to: ConnId)
    ensures Inbox(a + b, to) == Inbox(a, to) + Inbox(b, to)
    decreases |a|
  {
    if a != [] {
      assert (a + b)[0] == a[0];
      assert (a + b)[1..] == a[1..] + b;
      InboxAppend(a[1..], b, to);
    } else {
      assert a + b == b;
    }
  }

  lemma InboxOfFour(acts: seq<Action>, to: ConnId)
    requires |acts| == 4
    ensures Inbox(acts, to) == Inbox([acts[0]], to) + Inbox([acts[1]], to) + Inbox([acts[2]], to) + Inbox([acts[3]], to)
  {
    assert acts == [acts[0]] + [acts[1]] + [acts[2]] + [acts[3]];
    InboxAppend([acts[0]] + [acts[1]] + [acts[2]], [acts[3]], to);
    InboxAppend([acts[0]] + [acts[1]], [acts[2]], to);
    InboxAppend([acts[0]], [acts[1]], to);
  }

  lemma DeliverTwo(c: ClientState, m1: Message, m2: Message)
    ensures Deliver(c, [m1, m2]) == Client.OnMessage(Client.OnMessage(c, m1), m2)
  {
    var c1 := Client.OnMessage(c, m1);
    assert [m1, m2][1..] == [m2];
    assert Deliver(c, [m1, m2]) == Deliver(c1, [m2]);
    assert [m2][1..] == [];
    assert Deliver(c1, [m2]) == Deliver(Client.OnMessage(c1, m2), []);
  }

  lemma DeliverThree(c: ClientState, m1: Message, m2: Message, m3: Message)
    ensures Deliver(c, [m1, m2, m3]) == Client.OnMessage(Client.OnMessage(Client.OnMessage(c, m1), m2), m3)
  {
    assert [m1, m2, m3][1..] == [m2, m3];
    DeliverTwo(Client.OnMessage(c, m1), m2, m3);
  }

  /** The four messages of an accepted move, split by recipient. */
  lemma MoveInboxes(seats: Seats, me: PlayerType, data: GameData)
    requires BothSeated(seats) && seats.white != seats.black
    ensures var acts := [Send(seats.white.value, GameDataIs(data)), Send(seats.black.value, GameDataIs(data)),
                         Send(Seat(seats, Opponent(me)).value, MakeAMove), Send(Seat(seats, me).value, WaitForTurn)];
      && Inbox(acts, Seat(seats, me).value) == [GameDataIs(data), WaitForTurn]
      && Inbox(acts, Seat(seats, Opponent(me)).value) == [GameDataIs(data), MakeAMove]
  {
    var acts := [Send(seats.white.value, GameDataIs(data)), Send(seats.black.value, GameDataIs(data)),
                 Send(Seat(seats, Opponent(me)).value, MakeAMove), Send(Seat(seats, me).value, WaitForTurn)];
    InboxOfFour(acts, Seat(seats, me).value);
    InboxOfFour(acts, Seat(seats, Opponent(me)).value);
  }

  /** After an accepted move, once each seated client has handled what the
      server sent it, both hold the new game data; the opponent's cells are
      enabled with the make-a-move label and the mover's are disabled with
      the waiting label. Under the intended turn test the opponent's client
      also reads from that data that it is the opponent's turn. */
  lemma AcceptedMoveReachesBothClients(
    ops: GameOps, rule: TurnRule, s: ServerState, from: ConnId, p1: Position, p2: Position,
    mine: ClientState, theirs: ClientState)
    requires Valid(s)
    requires from in s.registry
    requires var g := s.games[s.registry[from]];
      && MayMove(rule, SenderColour(g, from), g.data.turn)
      && Legal(ops, g.data.board, p1, p2)
      && BothSeated(g.seats)
      && g.seats.white != g.seats.black
    ensures var g := s.games[s.registry[from]];
      var me := SenderColour(g, from);
      var r := Server.OnMessage(ops, rule, s, from, MadeMove(p1, p2)).value;
      var data := r.state.games[s.registry[from]].data;
      var mine' := Deliver(mine, Inbox(r.actions, Seat(g.seats, me).value));
      var theirs' := Deliver(theirs, Inbox(r.actions, Seat(g.seats, Opponent(me)).value));
      && mine'.gameState == data && !mine'.cellsEnabled && mine'.status == WaitingTurn
      && theirs'.gameState == data && theirs'.cellsEnabled && theirs'.status == MakeMove
      && (rule == Intended && g.data.turn >= 0 ==> GetTurnPlayerType(theirs') == Opponent(me))
  {
    var g := s.games[s.registry[from]];
    var me := SenderColour(g, from);
    var r := Server.OnMessage(ops, rule, s, from, MadeMove(p1, p2)).value;
    var data := r.state.games[s.registry[from]].data;
    assert r.actions == [Send(g.seats.white.value, GameDataIs(data)), Send(g.seats.black.value, GameDataIs(data)),
                         Send(Seat(g.seats, Opponent(me)).value, MakeAMove), Send(Seat(g.seats, me).value, WaitForTurn)];
    MoveInboxes(g.seats, me, data);
    DeliverTwo(mine, GameDataIs(data), WaitForTurn);
    DeliverTwo(theirs, GameDataIs(data), MakeAMove);
    if rule == Intended && g.data.turn >= 0 {
      assert data.turn == g.data.turn + 1;
      assert (me == White <==> g.data.turn % 2 == 0) by {
        assert MayMove(Intended, me, g.data.turn);
      }
    }
  }

  /** When a second player seals the open game, the player already seated as
      white is prompted to move and, if the newcomer took the black seat, its
      client learns its colour and the game data and waits for its turn. */
  lemma SealPromptsBothClients(ops: GameOps, s: ServerState, white: ClientState, black: ClientState)
    requires Valid(s)
    requires var (seats, role) := ops.addPlayer(s.games[s.current].seats, s.connectionId);
      && ops.hasTwoConnectedPlayers(seats)
      && BothSeated(seats)
      && seats.white != Some(s.connectionId)
      && seats.black == Some(s.connectionId)
    ensures var (seats, role) := ops.addPlayer(s.games[s.current].seats, s.connectionId);
      var r := OnConnection(ops, s).value;
      var white' := Deliver(white, Inbox(r.actions, seats.white.value));
      var black' := Deliver(black, Inbox(r.actions, s.connectionId));
      && white'.cellsEnabled && white'.status == MakeMove
      && black'.playerType == Some(role)
      && black'.gameState == s.games[s.current].data
      && !black'.cellsEnabled && black'.status == WaitingTurn
  {
    var (seats, role) := ops.addPlayer(s.games[s.current].seats, s.connectionId);
    var r := OnConnection(ops, s).value;
    var a := r.actions;
    InboxOfFour(a, seats.white.value);
    InboxOfFour(a, s.connectionId);
    assert Inbox(a, seats.white.value) == [MakeAMove];
    var data := s.games[s.current].data;
    assert Inbox(a, s.connectionId) == [PlayerTypeIs(role), GameDataIs(data), WaitForTurn];
    DeliverThree(black, PlayerTypeIs(role), GameDataIs(data), WaitForTurn);
  }
}

=== FILE: wrappers.dfy ===
/** Option and Result, the two failure-carrying shapes the model uses for
    JavaScript's `null` and for a handler that throws. */
module Wrappers {

  /** `null` / a value. */
  datatype Option<+T> = None | Some(value: T)

  /** A handler that ran to completion, or one that threw. */
  datatype Result<+R, +E> = Success(value: R) | Failure(error: E)
}
